=== FILE: README.md ===
# Asynchronous chat relay — a Dafny model

The repository is a small chat room built on Java's asynchronous channels
(package `aioChatRoom`). A server accepts connections. Whatever one
connected client sends is relayed to every other connected client, with a
`客户端[<port>]:` attribution in front. A client that sends `quit`, or
whose read ends, is removed and its channel closed. A console client sends
each non-empty line it reads, stops after `quit`, and prints whatever the
server relays to it.

This project models that core as pure functions over immutable data:

- `Channels`: channel identities, the remote-port lookup, a connected
  client, and the effects the server performs on channels (writes,
  failed writes, closes, re-armed reads and accepts, failure reports).
- `Registry`: the server's `connectedClients` list. Adding appends;
  removing deletes the first matching entry, as `List.remove(Object)`
  does; a broadcast walks the list in order.
- `Decimal` and `Broadcast`: `getClientName` (the port printed in
  decimal, `-1` when the lookup throws) and `forwardMsg`.
- `Server`: the accept and read completion handlers, and the failure
  callbacks, as transitions from a state to a new state plus a trace of
  effects. `Run` delivers a sequence of callbacks one at a time.
- `Protocol`: the `quit` test shared by server and client.
- `ChatClient`: `sendMsg` and the receive loop of `start`.
- `UserInput`: the console loop of `UserInputHandler.run`.

Three things are inputs to the model rather than computed by it:
- Channel failures are parameters: the set of recipients whose write
  throws during a broadcast, the outcome of a client write, and the
  results of the client's reads.
- The decoded text of a read is given directly.
- Console input is a finite sequence of `readLine` outcomes.

The attribution prefix is built from the recipient's own channel
(`getClientName(client)`, `src/aioChatRoom/ChatServer.java:165`), so every
recipient sees its own port, whoever sent the message.
`Broadcast.AttributionIgnoresSender` and `Server.ScenarioHello` state this.

## Model

| member | source | states |
|---|---|---|
| Decimal.IntToString | src/aioChatRoom/ChatServer.java:184 | the port is printed as `-` exactly for negative values, followed by decimal digits with no leading zero |
| Decimal.IntToStringRoundTrip | src/aioChatRoom/ChatServer.java:184 | the decimal text of the port, `-` included for negatives, reads back as the same integer |
| Decimal.IntToStringInjective | src/aioChatRoom/ChatServer.java:184 | different ports never print as the same text |
| Protocol.QuitIsExact | src/aioChatRoom/ChatServer.java:150-152 | the quit test is exact string equality with `quit`: case changes, extra or missing characters and the empty line are not `quit` |
| Protocol.ReadyToQuit | src/aioChatRoom/ChatServer.java:150-152 | a message is `quit` exactly when it has four characters, `q`, `u`, `i`, `t`, in that order (`String.equals`); the client's copy at `src/aioChatRoom/ChatClient.java:91-93` is the same test |
| Registry.AddClient | src/aioChatRoom/ChatServer.java:130-131 | the new handler is appended at the end; earlier entries keep their places and every handler registered before stays registered |
| Registry.RemoveFirst | src/aioChatRoom/ChatServer.java:135-137 | an absent handler leaves the list unchanged; otherwise exactly the first entry for that handler is cut out |
| Registry.RemoveFirstShifts | src/aioChatRoom/ChatServer.java:137 | after removal, entries before the removed one keep their index and entries after it move down by one |
| Registry.RemoveKeepsOthers | src/aioChatRoom/ChatServer.java:137 | removing one handler neither drops nor adds any other handler |
| Registry.RemoveUnique | src/aioChatRoom/ChatServer.java:137 | on a duplicate-free list, removal takes the handler out entirely, shortens the list by one and keeps it duplicate-free |
| Registry.RemoveIdempotent | src/aioChatRoom/ChatServer.java:135-139 | on a duplicate-free list (every list the server holds, by `Server.RunInvariant`), removing a handler a second time changes nothing further; no server path removes the same handler twice, since neither removal path issues another read |
| Registry.AddThenRemove | src/aioChatRoom/ChatServer.java:130-137 | removing a handler just appended restores the list as it was |
| Registry.Recipients | src/aioChatRoom/ChatServer.java:159-161 | the broadcast visits exactly the registered clients whose channel is not the sender's |
| Registry.RecipientsAreRegistryWithoutSender | src/aioChatRoom/ChatServer.java:158-161 | with unique handlers, the recipients are the list with the sender's entry cut out, in list order |
| Broadcast.ClientName | src/aioChatRoom/ChatServer.java:176-185 | the attribution is `客户端[`, a decimal port and `]:` |
| Broadcast.ClientNameRoundTrip | src/aioChatRoom/ChatServer.java:176-185 | the port can be read back out of the attribution |
| Broadcast.ClientNameInjective | src/aioChatRoom/ChatServer.java:176-185 | two channels get the same attribution exactly when they report the same port, a failed lookup counting as `-1` |
| Broadcast.LookupFailureIsMinusOne | src/aioChatRoom/ChatServer.java:177-183 | a failed address lookup prints `客户端[-1]:`, the same text as a port of `-1` |
| Broadcast.Delivery | src/aioChatRoom/ChatServer.java:163-170 | each recipient gets one write attempt addressed to it, which fails exactly when writing to that channel throws |
| Broadcast.Forward | src/aioChatRoom/ChatServer.java:158-174 | the broadcast issues, in list order, one delivery per recipient and nothing else |
| Broadcast.ForwardExactlyOnce | src/aioChatRoom/ChatServer.java:158-172 | with unique handlers, every registered client except the sender gets exactly one write attempt; the sender and unregistered channels get none |
| Broadcast.SenderExcluded | src/aioChatRoom/ChatServer.java:161 | nothing in a broadcast is addressed to the sender |
| Broadcast.WritesAttributedToRecipient | src/aioChatRoom/ChatServer.java:165-167 | every write goes to a registered non-sender and carries that recipient's attribution followed by the message |
| Broadcast.FailureIsolated | src/aioChatRoom/ChatServer.java:163-170 | a recipient whose write throws changes only the entry addressed to it; the rest of the broadcast is the same |
| Broadcast.AttributionIgnoresSender | src/aioChatRoom/ChatServer.java:165 | what a broadcast addresses to a third client is identical whichever client sent the message |
| Server.OnAcceptCompleted | src/aioChatRoom/ChatServer.java:69-80 | the accept is re-armed first, exactly when the listening channel is open; the listening state is unchanged |
| Server.AcceptAppendsOne | src/aioChatRoom/ChatServer.java:73-78 | a non-null open channel appends one new handler, not already registered, with that channel's port, and issues its read last; otherwise the state is unchanged and no read is issued |
| Server.OnReadCompleted | src/aioChatRoom/ChatServer.java:101-122 | the client list afterwards is the list with the handler's first entry removed on a non-positive result or `quit`, and unchanged otherwise; a non-positive result emits only the close; otherwise the broadcast comes first, followed by exactly one more effect, which closes the channel on `quit` and issues a new read otherwise |
| Server.RemovalOnlyOnEofOrQuit | src/aioChatRoom/ChatServer.java:101-122 | a registered client leaves the list exactly when its own read completes with a non-positive result or with `quit` |
| Server.FailuresOnlyReport | src/aioChatRoom/ChatServer.java:83-127 | a failed accept (lines 83-86) or a failed read or write (lines 124-127) only reports: no state change, nothing re-armed or closed; a write completion, whose attachment is `null` (line 103), does nothing |
| Server.Step | src/aioChatRoom/ChatServer.java:67-128 | a callback never changes whether the server listens; only an accept hands out a new identity, at most one; only a read completion closes a channel; failure callbacks and write completions leave the state unchanged, and every effect they have is the printed report: they close nothing, issue no read and do not re-arm the accept |
| Server.Run | src/aioChatRoom/ChatServer.java:67-128 | callbacks delivered one after another never change whether the server listens, and hand out at most one new identity per callback |
| Server.RunSplit | src/aioChatRoom/ChatServer.java:67-128 | delivering two batches of callbacks one after the other gives the same state and the same effects, in order, as delivering them as one run |
| Server.ArmsOnlyRegistered | src/aioChatRoom/ChatServer.java:73-118 | every read a callback issues is for a handler that is in the list after that callback: a just-registered one (line 78) or one whose read neither ended nor quit (line 118) |
| Server.AcceptArmsNewClient | src/aioChatRoom/ChatServer.java:69-80 | the only read an accept issues is for the client it has just appended to the list |
| Server.ReadArmsOwnHandler | src/aioChatRoom/ChatServer.java:101-122 | after a read on a registered handler, any new read is for that handler, and that handler is still in the list |
| Server.StepInvariant | src/aioChatRoom/ChatServer.java:67-140 | one callback keeps the list duplicate-free, never re-registers an old handler, and closes only channels that were in the list before it and are not afterwards |
| Server.StepMembership | src/aioChatRoom/ChatServer.java:67-140 | after one callback a handler is in the list exactly when it was there before or was just created, and the callback did not close its channel |
| Server.RunInvariant | src/aioChatRoom/ChatServer.java:67-140 | over any run of callbacks, the list stays duplicate-free, never takes back an old handler, and no client still in it has had its channel closed |
| Server.AcceptMembership | src/aioChatRoom/ChatServer.java:69-80 | after an accept, a handler is listed exactly when it was listed before or is the client just created; an accept closes nothing |
| Server.ReadMembership | src/aioChatRoom/ChatServer.java:101-122 | after a read on a listed handler, a handler is listed exactly when it was listed before and the read did not close its channel |
| Server.RunMembership | src/aioChatRoom/ChatServer.java:67-140 | after any run, a handler is in the list exactly when it was there at the start or was created during the run, and the run did not close its channel |
| Server.ConnectedIffOpen | src/aioChatRoom/ChatServer.java:67-140 | from a fresh server, a handler that has been created is in the list exactly as long as its channel has not been closed |
| Server.ScenarioConnect | src/aioChatRoom/ChatServer.java:69-79 | two accepts from a fresh server register ports 7 and 8 in order, each re-arming the accept before issuing the new read |
| Server.ScenarioHello | src/aioChatRoom/ChatServer.java:110-118 | `hello` from the port-7 client reaches only the port-8 client, prefixed with port 8 (the recipient's), and the sender's read is re-armed |
| Server.ScenarioQuit | src/aioChatRoom/ChatServer.java:110-116 | `quit` from the port-8 client is still relayed to the port-7 client, then the sender is closed and removed |
| Server.QuitOfSecondClient | src/aioChatRoom/ChatServer.java:110-116 | for any two ports, when the second of two clients sends `quit`, the first receives it under its own prefix, then the sender is closed and removed, leaving only the first |
| Server.ScenarioAlone | src/aioChatRoom/ChatServer.java:158-172 | with one client left, its message reaches nobody and only re-arms its read |
| ChatClient.SendMsg | src/aioChatRoom/ChatClient.java:69-81 | an empty message is not written; any other is written once, whole; a failed write is reported exactly when a write was made and failed |
| ChatClient.SendFailureNotPropagated | src/aioChatRoom/ChatClient.java:75-79 | the caller sees the same writes whether or not the write failed |
| ChatClient.Printed | src/aioChatRoom/ChatClient.java:48-61 | every read before the output ends returned data, and the read right after it, if any, returned zero or less or threw: output stops at the first such read |
| ChatClient.ReceiveLoop | src/aioChatRoom/ChatClient.java:47-66 | the loop prints what `Printed` describes, takes one more read than it prints when a read ends it, and stays open exactly when every read returned data |
| ChatClient.PrintedIsOpenPrefix | src/aioChatRoom/ChatClient.java:48-61 | what is printed is, in order, the texts of the leading reads that returned data; everything is printed exactly when every read returned data |
| UserInput.StopIndex | src/aioChatRoom/UserInputHandler.java:24-32 | the loop consumes input up to and including the first `quit` line or end of input, or all of it when neither occurs |
| UserInput.RunInput | src/aioChatRoom/UserInputHandler.java:21-37 | the loop writes the non-empty lines up to the first `quit` (included) or the end of input, and reports a quit exactly when it stopped on a `quit` line |
| UserInput.QuitIsSentLast | src/aioChatRoom/UserInputHandler.java:26-31 | when the loop stops on `quit`, `quit` itself is the last message written |
| UserInput.NothingAfterQuit | src/aioChatRoom/UserInputHandler.java:29-31 | nothing typed after the line that ends the loop is ever written |
| UserInput.NonQuitContinues | src/aioChatRoom/UserInputHandler.java:26-35 | a non-`quit` line adds itself (when non-empty), and a failed `readLine` adds nothing; the loop goes on either way |
| UserInput.EndOfInputStops | src/aioChatRoom/UserInputHandler.java:26-27 | at the end of input (`readLine` gives `null`, and `sendMsg` throws an uncaught exception), the loop ends having written exactly the earlier non-empty lines |
| UserInput.SessionExample | src/aioChatRoom/UserInputHandler.java:21-37 | a session of `hello`, an empty line, a failed read, `quit` (whose write fails) and `after` writes `hello` and `quit` only |

## Left out

- Threads, the channel group's thread pool and `synchronized`: callbacks are delivered one at a time, each as an atomic transition, so interleavings inside a handler are not modelled.
- Sockets, `ByteBuffer`, UTF-8 encoding and decoding: a read delivers its decoded text directly, and a write carries a string.
- The 1024-byte read buffer: a message longer than one buffer, or two messages arriving in one read, are not split or merged.
- `ChatServer.start` and `ChatClient.start` setup (opening, binding, connecting, the `System.in.read()` loop) and both `main` methods: these are I/O with no decision logic.
- Console printing: success messages are not modelled; failures appear only as a `Reported` effect or a `reported` flag.
- Failures when re-arming a read or an accept (`ReadPendingException` and the like) and failures of `close()` itself: these are not modelled.
- A `null` from `getRemoteAddress()`, which would throw a `NullPointerException` in `getClientName`: only the `IOException` path (port `-1`) is modelled.
- Server.RunInvariant: it, Server.RunMembership and Server.ConnectedIffOpen assume that a read completes only for a handler still in the list (`Admissible`). The server's half of this is proved: Server.ArmsOnlyRegistered shows a read is issued only for a handler in the list after the callback that issues it, and a handler removed by a read issues no further read. The runtime's half, that a completion arrives only for a read that was issued, is assumed, because the model does not track pending reads.

=== FILE: broadcast.dfy ===
/**
  `forwardMsg` and `getClientName`: one write per connected client other
  than the sender, in list order, each carrying an attribution prefix
  computed from the RECIPIENT's channel followed by the message.
 */
module Broadcast {
  import opened Wrappers
  import opened Channels
  import opened Registry
  import Decimal

  const NamePrefix: string := "客户端["
  const NameSuffix: string := "]:"

  /** The port `getClientName` prints: the looked-up remote port, or -1 when the lookup threw. */
  function PortNumber(p: PortLookup): int {
    match p
    case Port(n) => n
    case LookupFailed => -1
  }

  /** `getClientName`: the attribution prefix for a channel. */
  function ClientName(p: PortLookup): (name: string)
    ensures |NamePrefix| + 3 <= |name|
    ensures name[..|NamePrefix|] == NamePrefix
    ensures name[|name| - |NameSuffix|..] == NameSuffix
  {
    NamePrefix + Decimal.IntToString(PortNumber(p)) + NameSuffix
  }

  /** Reads the port back out of an attribution prefix; `None` if the text is not one. */
  function ParseName(name: string): Option<int> {
    if |name| >= |NamePrefix| + |NameSuffix|
       && name[..|NamePrefix|] == NamePrefix
       && name[|name| - |NameSuffix|..] == NameSuffix
    then Decimal.ParseInt(name[|NamePrefix|..|name| - |NameSuffix|])
    else None
  }

  /** The attribution prefix names exactly one port: reading it back gives that port. */
  lemma ClientNameRoundTrip(p: PortLookup)
    ensures ParseName(ClientName(p)) == Some(PortNumber(p))
  {
    var digits := Decimal.IntToString(PortNumber(p));
    var name := ClientName(p);
    assert name[|NamePrefix|..|name| - |NameSuffix|] == digits;
    Decimal.IntToStringRoundTrip(PortNumber(p));
  }

  /** Two channels get the same attribution exactly when they report the same port (-1 on failure). */
  lemma ClientNameInjective(p: PortLookup, q: PortLookup)
    ensures ClientName(p) == ClientName(q) <==> PortNumber(p) == PortNumber(q)
  {
    if ClientName(p) == ClientName(q) {
      ClientNameRoundTrip(p);
      ClientNameRoundTrip(q);
    }
  }

  /** A failed lookup is attributed as port -1, indistinguishable from a channel reporting -1. */
  lemma LookupFailureIsMinusOne()
    ensures ClientName(LookupFailed) == "客户端[-1]:"
    ensures ClientName(LookupFailed) == ClientName(Port(-1))
  {
  }

  /**
    The one write `forwardMsg` attempts for a recipient: an attributed copy,
    or a reported failure when writing to that channel throws.
   */
  function Delivery(c: Client, msg: string, unwritable: set<ChannelId>): (e: Effect)
    ensures e.AddressedTo(c.id)
    ensures e.Write? <==> c.id !in unwritable
  {
    if c.id in unwritable then WriteFailed(c.id) else Write(c.id, ClientName(c.remote) + msg)
  }

  /**
    `forwardMsg(sender, msg)`: walks the list once; every client whose
    channel differs from the sender's gets exactly the delivery for it, in
    list order. A failing write is caught and the walk goes on.
   */
  function Forward(reg: seq<Client>, sender: ChannelId, msg: string, unwritable: set<ChannelId>): (out: seq<Effect>)
    ensures |out| == |Recipients(reg, sender)|
    ensures forall j :: 0 <= j < |out| ==> out[j] == Delivery(Recipients(reg, sender)[j], msg, unwritable)
  {
    if |reg| == 0 then []
    else
      var rest := Forward(reg[1..], sender, msg, unwritable);
      if reg[0].id == sender then rest else [Delivery(reg[0], msg, unwritable)] + rest
  }

  /**
    Every registered client other than the sender gets exactly one write
    (attempt); the sender and unregistered channels get none.
   */
  lemma {:induction false} ForwardExactlyOnce(reg: seq<Client>, sender: ChannelId, msg: string, unwritable: set<ChannelId>, id: ChannelId)
    requires UniqueIds(reg)
    ensures CountTo(Forward(reg, sender, msg, unwritable), id) == (if Registered(reg, id) && id != sender then 1 else 0)
  {
    if |reg| > 0 {
      var rest := Forward(reg[1..], sender, msg, unwritable);
      UniqueTail(reg);
      ForwardExactlyOnce(reg[1..], sender, msg, unwritable, id);
      RegisteredTail(reg, id);
      if reg[0].id != sender {
        var head := [Delivery(reg[0], msg, unwritable)];
        CountToAppend(head, rest, id);
        assert CountTo(head, id) == (if reg[0].id == id then 1 else 0) by {
          assert head[..0] == [];
        }
      }
    }
  }

  /** The sender never receives its own message. */
  lemma SenderExcluded(reg: seq<Client>, sender: ChannelId, msg: string, unwritable: set<ChannelId>)
    ensures forall e :: e in Forward(reg, sender, msg, unwritable) ==> !e.AddressedTo(sender)
  {
    var out := Forward(reg, sender, msg, unwritable);
    var rs := Recipients(reg, sender);
    forall e | e in out
      ensures !e.AddressedTo(sender)
    {
      var j :| 0 <= j < |out| && out[j] == e;
      assert rs[j] in rs;
    }
  }

  /**
    Every write carries the attribution of the channel it is written to,
    followed by the message; that channel is a registered client other
    than the sender.
   */
  lemma WritesAttributedToRecipient(reg: seq<Client>, sender: ChannelId, msg: string, unwritable: set<ChannelId>)
    ensures forall e :: e in Forward(reg, sender, msg, unwritable) && e.Write? ==>
      exists c :: c in reg && c.id == e.to && c.id != sender && e.text == ClientName(c.remote) + msg
  {
    var out := Forward(reg, sender, msg, unwritable);
    var rs := Recipients(reg, sender);
    forall e | e in out && e.Write?
      ensures exists c :: c in reg && c.id == e.to && c.id != sender && e.text == ClientName(c.remote) + msg
    {
      var j :| 0 <= j < |out| && out[j] == e;
      assert rs[j] in rs;
    }
  }

  /**
    A failing recipient does not disturb the others: adding a channel to the
    failing set changes only the entries addressed to that channel.
   */
  lemma FailureIsolated(reg: seq<Client>, sender: ChannelId, msg: string, unwritable: set<ChannelId>, bad: ChannelId)
    ensures var a, b := Forward(reg, sender, msg, unwritable), Forward(reg, sender, msg, unwritable + {bad});
      |a| == |b| && forall j :: 0 <= j < |a| ==> a[j] == b[j] || (a[j].AddressedTo(bad) && b[j] == WriteFailed(bad))
  {
  }

  /**
    As written, the prefix does not depend on who sent the message: any
    write (or failed write) one sender's broadcast addresses to a third
    client is exactly the one another sender's broadcast addresses to it.
   */
  lemma AttributionIgnoresSender(reg: seq<Client>, s1: ChannelId, s2: ChannelId, msg: string, unwritable: set<ChannelId>)
    ensures forall e :: e in Forward(reg, s1, msg, unwritable) && !e.AddressedTo(s2) ==> e in Forward(reg, s2, msg, unwritable)
  {
    var out1, out2 := Forward(reg, s1, msg, unwritable), Forward(reg, s2, msg, unwritable);
    var rs1, rs2 := Recipients(reg, s1), Recipients(reg, s2);
    forall e | e in out1 && !e.AddressedTo(s2)
      ensures e in out2
    {
      var j :| 0 <= j < |out1| && out1[j] == e;
      var c := rs1[j];
      assert c in rs1;
      assert c in rs2;
      var k :| 0 <= k < |rs2| && rs2[k] == c;
      assert out2[k] == e;
    }
  }
}

=== FILE: channels.dfy ===
/**
  The server's view of the socket layer. Channels are not modelled as
  sockets: a channel is an identity, a remote port that may fail to be
  looked up, and the effects the server asks of it (writes, close, arming
  the next read or accept), which are collected as a trace.
 */
module Channels {

  /** Identity of an accepted connection (the channel object, and the one handler wrapping it). */
  type ChannelId = nat

  /** Outcome of `getRemoteAddress().getPort()` on a channel. */
  datatype PortLookup = Port(port: int) | LookupFailed

  /** One entry of the connected-clients list: a handler and its channel's remote port. */
  datatype Client = Client(id: ChannelId, remote: PortLookup)

  /** Effects the server performs on channels, in the order it performs them. */
  datatype Effect =
    | Write(to: ChannelId, text: string)   // a write issued to a recipient
    | WriteFailed(to: ChannelId)           // a write that failed and was only reported
    | Close(channel: ChannelId)
    | ArmRead(channel: ChannelId)          // the next read issued on a client channel
    | ArmAccept                            // the next accept issued on the listening channel
    | Reported                             // a failure callback printed its message
  {
    /** The client a write (successful or not) is addressed to. */
    predicate AddressedTo(id: ChannelId) {
      (Write? || WriteFailed?) && to == id
    }
  }

  /** Number of effects in a trace addressed to `id`. */
  function CountTo(effects: seq<Effect>, id: ChannelId): (n: nat)
    ensures n <= |effects|
  {
    if |effects| == 0 then 0
    else CountTo(effects[..|effects| - 1], id) + (if effects[|effects| - 1].AddressedTo(id) then 1 else 0)
  }

  lemma {:induction false} CountToAppend(a: seq<Effect>, b: seq<Effect>, id: ChannelId)
    ensures CountTo(a + b, id) == CountTo(a, id) + CountTo(b, id)
    decreases |b|
  {
    if |b| > 0 {
      assert (a + b)[..|a + b| - 1] == a + b[..|b| - 1];
      CountToAppend(a, b[..|b| - 1], id);
    } else {
      assert a + b == a;
    }
  }

  /** Channels closed somewhere in a trace. */
  predicate ClosedIn(effects: seq<Effect>, id: ChannelId) {
    Close(id) in effects
  }
}

=== FILE: client.dfy ===
/**
  The chat client's two cores: `sendMsg`, which writes one non-empty
  message and swallows a write failure, and the receive loop of `start`,
  which prints each chunk the server sends until a read returns nothing.
 */
module ChatClient {

  /** Whether the awaited write completed or threw. */
  datatype WriteOutcome = Delivered | WriteError

  /** What a call of `sendMsg` did: the writes it issued, and whether it printed a failure. */
  datatype Send = Send(writes: seq<string>, reported: bool)

  /**
    `sendMsg`: an empty message is dropped; any other message is written
    once, whole. A failed write is printed and does not reach the caller.
   */
  function SendMsg(msg: string, outcome: WriteOutcome): (r: Send)
    ensures |r.writes| <= 1 && forall m :: m in r.writes ==> m == msg && |m| > 0
    ensures |r.writes| == 1 <==> |msg| > 0
    ensures r.reported <==> |r.writes| == 1 && outcome == WriteError
  {
    if |msg| == 0 then Send([], false)
    else Send([msg], outcome == WriteError)
  }

  /** The caller sees the same writes whether the write succeeded or failed. */
  lemma SendFailureNotPropagated(msg: string)
    ensures SendMsg(msg, WriteError).writes == SendMsg(msg, Delivered).writes
    ensures !SendMsg(msg, Delivered).reported
  {
  }

  /** What one `read(buffer).get()` of the receive loop gave. */
  datatype ReadOutcome = Received(result: int, text: string) | ReadThrew

  predicate KeepsOpen(r: ReadOutcome) {
    r.Received? && r.result > 0
  }

  /**
    What the loop prints for a sequence of results: the text of each read
    with a positive result, up to the first read that returns zero or less
    (or throws), after which the channel is closed and nothing more is read.
   */
  function Printed(results: seq<ReadOutcome>): (out: seq<string>)
    ensures |out| <= |results|
    ensures |out| < |results| ==> !KeepsOpen(results[|out|])
    ensures forall j :: 0 <= j < |out| ==> KeepsOpen(results[j])
  {
    PrintedFrom(results, 0)
  }

  /** What the loop prints from the `i`-th read on, the channel still being open. */
  function PrintedFrom(results: seq<ReadOutcome>, i: nat): (out: seq<string>)
    requires i <= |results|
    ensures i + |out| <= |results|
    ensures i + |out| < |results| ==> !KeepsOpen(results[i + |out|])
    ensures forall k :: i <= k < i + |out| ==> KeepsOpen(results[k])
    decreases |results| - i
  {
    if i == |results| || !KeepsOpen(results[i]) then []
    else [results[i].text] + PrintedFrom(results, i + 1)
  }

  /** Number of reads the loop performs: the ones that returned data, and the one that ended it, if any. */
  function ReadsTaken(results: seq<ReadOutcome>): (k: nat)
    ensures k <= |results|
  {
    var n := |Printed(results)|;
    if n < |results| then n + 1 else n
  }

  /** All results returned data: the loop is still waiting on an open channel. */
  predicate AllOpen(results: seq<ReadOutcome>) {
    forall j :: 0 <= j < |results| ==> KeepsOpen(results[j])
  }

  /**
    The receive loop of `start`: while the channel is open, read; a result
    of zero or less (or an exception, via `finally`) closes the channel,
    which ends the loop; otherwise print the text and clear the buffer.
   */
  method ReceiveLoop(results: seq<ReadOutcome>) returns (printed: seq<string>, taken: nat, open: bool)
    ensures printed == Printed(results)
    ensures taken == ReadsTaken(results)
    ensures open <==> AllOpen(results)
  {
    printed, taken, open := [], 0, true;
    while open && taken < |results|
      invariant taken <= |results|
      invariant open ==> |printed| == taken && printed + PrintedFrom(results, taken) == Printed(results)
      invariant !open ==> printed == Printed(results) && taken == |printed| + 1
      decreases |results| - taken
    {
      var r := results[taken];
      if !KeepsOpen(r) {
        taken, open := taken + 1, false;
      } else {
        printed := printed + [r.text];
        taken := taken + 1;
      }
    }
    PrintedIsOpenPrefix(results);
  }

  /**
    The receive loop prints exactly the texts of the leading reads that
    returned data, in order; if some read ended it, that read was the one
    right after them and was the last one taken.
   */
  lemma PrintedIsOpenPrefix(results: seq<ReadOutcome>)
    ensures var out := Printed(results);
      && (forall j :: 0 <= j < |out| ==> KeepsOpen(results[j]) && out[j] == results[j].text)
      && (AllOpen(results) <==> |out| == |results|)
  {
    PrintedFromIsOpenRun(results, 0);
  }

  lemma {:induction false} PrintedFromIsOpenRun(results: seq<ReadOutcome>, i: nat)
    requires i <= |results|
    ensures var out := PrintedFrom(results, i);
      && (forall k :: i <= k < i + |out| ==> KeepsOpen(results[k]) && out[k - i] == results[k].text)
      && ((forall k :: i <= k < |results| ==> KeepsOpen(results[k])) <==> i + |out| == |results|)
    decreases |results| - i
  {
    if i < |results| && KeepsOpen(results[i]) {
      PrintedFromIsOpenRun(results, i + 1);
      var rest := PrintedFrom(results, i + 1);
      assert PrintedFrom(results, i) == [results[i].text] + rest;
    }
  }
}

=== FILE: decimal.dfy ===
/**
  Decimal text of an `int`, as Java's string concatenation renders one
  (`"" + port`): an optional minus sign followed by the digits of the
  magnitude, with no leading zeros. A parser is given as the independent
  partner, so that the rendering is shown to lose no information.
 */
module Decimal {
  import opened Wrappers

  predicate IsDigit(c: char) {
    '0' <= c <= '9'
  }

  predicate AllDigits(s: string) {
    forall i :: 0 <= i < |s| ==> IsDigit(s[i])
  }

  function DigitChar(d: nat): (c: char)
    requires d < 10
    ensures IsDigit(c)
  {
    ('0' as int + d) as char
  }

  function DigitValue(c: char): (d: nat)
    requires IsDigit(c)
    ensures d < 10
  {
    c as int - '0' as int
  }

  /** The decimal digits of `n`, most significant first. */
  function NatToString(n: nat): (s: string)
    ensures 1 <= |s|
    ensures AllDigits(s)
    ensures |s| > 1 ==> s[0] != '0'
    decreases n
  {
    if n < 10 then [DigitChar(n)] else NatToString(n / 10) + [DigitChar(n % 10)]
  }

  /** The number a string of decimal digits denotes. */
  function DigitsValue(s: string): nat
    requires AllDigits(s)
  {
    if |s| == 0 then 0 else DigitsValue(s[..|s| - 1]) * 10 + DigitValue(s[|s| - 1])
  }

  lemma {:induction false} DigitsRoundTrip(n: nat)
    ensures DigitsValue(NatToString(n)) == n
    decreases n
  {
    var s := NatToString(n);
    if n >= 10 {
      DigitsRoundTrip(n / 10);
      assert s[..|s| - 1] == NatToString(n / 10);
    }
  }

  /** Java's rendering of an `int` in string concatenation. */
  function IntToString(i: int): (s: string)
    ensures 1 <= |s|
    ensures s[0] == '-' <==> i < 0
    ensures i >= 0 ==> AllDigits(s)
    ensures i < 0 ==> 2 <= |s| && AllDigits(s[1..]) && s[1] != '0'
    ensures i >= 0 && |s| > 1 ==> s[0] != '0'
  {
    if i < 0 then "-" + NatToString(-i) else NatToString(i)
  }

  /** Reads back an optionally negative decimal numeral; `None` for anything else. */
  function ParseInt(s: string): (r: Option<int>)
    ensures r.Some? && r.value < 0 ==> |s| >= 2 && s[0] == '-'
  {
    if |s| >= 2 && s[0] == '-' && AllDigits(s[1..]) then
      var magnitude: int := DigitsValue(s[1..]);
      if magnitude == 0 then None else Some(-magnitude)
    else if |s| >= 1 && AllDigits(s) then Some(DigitsValue(s))
    else None
  }

  /** Parsing the rendering gives the number back. */
  lemma IntToStringRoundTrip(i: int)
    ensures ParseInt(IntToString(i)) == Some(i)
  {
    var s := IntToString(i);
    if i < 0 {
      DigitsRoundTrip(-i);
      assert s[1..] == NatToString(-i);
      assert |s| >= 2 && s[0] == '-' && AllDigits(s[1..]);
      assert DigitsValue(s[1..]) == -i;
    } else {
      DigitsRoundTrip(i);
      assert s[0] != '-' && AllDigits(s);
    }
  }

  /** Different numbers never render to the same text. */
  lemma IntToStringInjective(i: int, j: int)
    requires IntToString(i) == IntToString(j)
    ensures i == j
  {
    IntToStringRoundTrip(i);
    IntToStringRoundTrip(j);
  }
}

=== FILE: protocol.dfy ===
/**
  The one command of the chat protocol: a message that is exactly `quit`
  ends the sender's session. Server and client recognise it with the same
  case-sensitive, untrimmed comparison (`QUIT.equals(msg)`).
 */
module Protocol {

  const Quit: string := "quit"

  /** `readyToQuit`: `String.equals`, i.e. the same length and the same character at every position. */
  predicate ReadyToQuit(msg: string)
    ensures ReadyToQuit(msg) <==> |msg| == 4 && msg[0] == 'q' && msg[1] == 'u' && msg[2] == 'i' && msg[3] == 't'
  {
    msg == Quit
  }

  /** The comparison is exact: one more or one fewer character, or a change of case, is not `quit`. */
  lemma QuitIsExact(msg: string)
    ensures ReadyToQuit(msg) ==> |msg| == 4 && msg[0] == 'q' && msg[3] == 't'
    ensures !ReadyToQuit("Quit") && !ReadyToQuit("QUIT")
    ensures !ReadyToQuit("quit\n") && !ReadyToQuit(" quit") && !ReadyToQuit("")
    ensures ReadyToQuit(msg) ==> !ReadyToQuit(msg + " ") && !ReadyToQuit(msg[1..])
  {
  }
}

=== FILE: registry.dfy ===
/**
  The server's list of connected clients (`connectedClients`, an
  `ArrayList<ClientHandler>`): appended to on accept, searched and shortened
  on removal, and walked in order by the broadcast.
 */
module Registry {
  import opened Channels

  predicate Registered(reg: seq<Client>, id: ChannelId) {
    exists i :: 0 <= i < |reg| && reg[i].id == id
  }

  /** No handler appears twice. */
  predicate UniqueIds(reg: seq<Client>) {
    forall i, j :: 0 <= i < |reg| && 0 <= j < |reg| && reg[i].id == reg[j].id ==> i == j
  }

  /** Position of the first entry for `id`. */
  function IndexOf(reg: seq<Client>, id: ChannelId): (k: nat)
    requires Registered(reg, id)
    ensures k < |reg| && reg[k].id == id
    ensures forall j :: 0 <= j < k ==> reg[j].id != id
  {
    RegisteredTail(reg, id);
    if reg[0].id == id then 0 else 1 + IndexOf(reg[1..], id)
  }

  /** `addClient`: the new handler goes to the end of the list. */
  function AddClient(reg: seq<Client>, c: Client): (r: seq<Client>)
    ensures |r| == |reg| + 1 && r[..|reg|] == reg && r[|reg|] == c
    ensures Registered(r, c.id)
    ensures forall id :: Registered(reg, id) ==> Registered(r, id)
  {
    reg + [c]
  }

  /**
    `removeClient`: `List.remove(Object)` deletes the first entry for the
    handler and shifts the rest down; an absent handler leaves the list as it is.
   */
  function RemoveFirst(reg: seq<Client>, id: ChannelId): (r: seq<Client>)
    ensures !Registered(reg, id) ==> r == reg
    ensures Registered(reg, id) ==> r == reg[..IndexOf(reg, id)] + reg[IndexOf(reg, id) + 1..]
  {
    if |reg| == 0 then []
    else if reg[0].id == id then reg[1..]
    else
      RegisteredTail(reg, id);
      var rest := RemoveFirst(reg[1..], id);
      if Registered(reg, id) then
        RemoveFirstCons(reg, id, rest);
        [reg[0]] + rest
      else
        [reg[0]] + rest
  }

  /** The step of `RemoveFirst` past an entry for another handler. */
  lemma RemoveFirstCons(reg: seq<Client>, id: ChannelId, rest: seq<Client>)
    requires |reg| > 0 && reg[0].id != id && Registered(reg[1..], id)
    requires rest == reg[1..][..IndexOf(reg[1..], id)] + reg[1..][IndexOf(reg[1..], id) + 1..]
    ensures Registered(reg, id) && IndexOf(reg, id) == IndexOf(reg[1..], id) + 1
    ensures [reg[0]] + rest == reg[..IndexOf(reg, id)] + reg[IndexOf(reg, id) + 1..]
  {
    RegisteredTail(reg, id);
    var k := IndexOf(reg[1..], id);
    assert reg[1..][..k] == reg[1..k + 1];
    assert reg[1..][k + 1..] == reg[k + 2..];
    assert [reg[0]] + reg[1..k + 1] == reg[..k + 1];
  }

  /**
    The clients a broadcast from `sender` goes to: every entry whose channel
    is not the sender's, in list order.
   */
  function Recipients(reg: seq<Client>, sender: ChannelId): (r: seq<Client>)
    ensures |r| <= |reg|
    ensures forall c :: c in r <==> c in reg && c.id != sender
    ensures !Registered(reg, sender) ==> r == reg
  {
    if |reg| == 0 then []
    else
      var rest := Recipients(reg[1..], sender);
      RegisteredTail(reg, sender);
      assert reg == [reg[0]] + reg[1..];
      if reg[0].id == sender then rest else [reg[0]] + rest
  }

  lemma RegisteredTail(reg: seq<Client>, id: ChannelId)
    requires |reg| > 0
    ensures Registered(reg, id) <==> reg[0].id == id || Registered(reg[1..], id)
  {
    if Registered(reg, id) && reg[0].id != id {
      var i :| 0 <= i < |reg| && reg[i].id == id;
      assert reg[1..][i - 1].id == id;
    }
    if Registered(reg[1..], id) {
      var i :| 0 <= i < |reg[1..]| && reg[1..][i].id == id;
      assert reg[i + 1].id == id;
    }
  }

  /** Where each remaining entry came from after removing a registered handler. */
  lemma RemoveFirstShifts(reg: seq<Client>, id: ChannelId)
    requires Registered(reg, id)
    ensures var r, k := RemoveFirst(reg, id), IndexOf(reg, id);
      && |r| == |reg| - 1
      && (forall i :: 0 <= i < k ==> r[i] == reg[i])
      && (forall i :: k <= i < |r| ==> r[i] == reg[i + 1])
  {
    CutShifts(reg, IndexOf(reg, id));
  }

  /** Cutting out position `k` keeps the entries before it and shifts the ones after it down by one. */
  lemma CutShifts(reg: seq<Client>, k: nat)
    requires k < |reg|
    ensures var r := reg[..k] + reg[k + 1..];
      && |r| == |reg| - 1
      && (forall i :: 0 <= i < k ==> r[i] == reg[i])
      && (forall i :: k <= i < |r| ==> r[i] == reg[i + 1])
  {
  }

  /**
    Removal deletes only the named handler: every other handler is still
    there afterwards, and one that was not there does not appear.
   */
  lemma RemoveKeepsOthers(reg: seq<Client>, id: ChannelId, other: ChannelId)
    requires other != id
    ensures Registered(RemoveFirst(reg, id), other) <==> Registered(reg, other)
  {
    if Registered(reg, id) {
      var k := IndexOf(reg, id);
      var r := RemoveFirst(reg, id);
      RemoveFirstShifts(reg, id);
      if Registered(reg, other) {
        var i :| 0 <= i < |reg| && reg[i].id == other;
        var j := if i < k then i else i - 1;
        assert r[j].id == other;
      }
      if Registered(r, other) {
        var i :| 0 <= i < |r| && r[i].id == other;
        var j := if i < k then i else i + 1;
        assert reg[j].id == other;
      }
    }
  }

  /** With unique handlers, removal takes the handler out entirely and keeps the rest unique. */
  lemma RemoveUnique(reg: seq<Client>, id: ChannelId)
    requires UniqueIds(reg)
    ensures UniqueIds(RemoveFirst(reg, id))
    ensures !Registered(RemoveFirst(reg, id), id)
    ensures Registered(reg, id) ==> |RemoveFirst(reg, id)| == |reg| - 1
  {
    if Registered(reg, id) {
      RemoveFirstShifts(reg, id);
      RemoveKeepsUnique(reg, id);
      RemoveTakesOut(reg, id);
    }
  }

  lemma RemoveKeepsUnique(reg: seq<Client>, id: ChannelId)
    requires UniqueIds(reg) && Registered(reg, id)
    ensures UniqueIds(RemoveFirst(reg, id))
  {
    var k := IndexOf(reg, id);
    var r := RemoveFirst(reg, id);
    RemoveFirstShifts(reg, id);
    forall i, j | 0 <= i < |r| && 0 <= j < |r| && r[i].id == r[j].id
      ensures i == j
    {
      var i' := if i < k then i else i + 1;
      var j' := if j < k then j else j + 1;
      assert reg[i'].id == reg[j'].id;
    }
  }

  lemma RemoveTakesOut(reg: seq<Client>, id: ChannelId)
    requires UniqueIds(reg) && Registered(reg, id)
    ensures !Registered(RemoveFirst(reg, id), id)
  {
    var k := IndexOf(reg, id);
    var r := RemoveFirst(reg, id);
    RemoveFirstShifts(reg, id);
    forall i | 0 <= i < |r|
      ensures r[i].id != id
    {
      var i' := if i < k then i else i + 1;
      assert reg[i'] == r[i];
    }
  }

  /** Removing the same handler twice leaves the list as one removal does. */
  lemma RemoveIdempotent(reg: seq<Client>, id: ChannelId)
    requires UniqueIds(reg)
    ensures RemoveFirst(RemoveFirst(reg, id), id) == RemoveFirst(reg, id)
  {
    RemoveUnique(reg, id);
  }

  /** Removal undoes an append of a handler that was not yet in the list. */
  lemma AddThenRemove(reg: seq<Client>, c: Client)
    requires !Registered(reg, c.id)
    ensures RemoveFirst(AddClient(reg, c), c.id) == reg
  {
    var r := AddClient(reg, c);
    var k := IndexOf(r, c.id);
    assert r[k].id == c.id;
    assert forall i :: 0 <= i < |reg| ==> r[i] == reg[i] && reg[i].id != c.id;
    assert r[..k] == reg;
  }

  /**
    The broadcast's recipients are the list with the sender's own entry cut
    out, every other entry keeping its place relative to the rest.
   */
  lemma {:induction false} RecipientsAreRegistryWithoutSender(reg: seq<Client>, sender: ChannelId)
    requires UniqueIds(reg)
    ensures Recipients(reg, sender) == RemoveFirst(reg, sender)
  {
    if |reg| > 0 {
      UniqueTail(reg);
      RegisteredTail(reg, sender);
      if reg[0].id != sender {
        RecipientsAreRegistryWithoutSender(reg[1..], sender);
      }
    }
  }

  /** The tail of a duplicate-free list is duplicate-free and does not hold the head's handler. */
  lemma UniqueTail(reg: seq<Client>)
    requires |reg| > 0 && UniqueIds(reg)
    ensures UniqueIds(reg[1..]) && !Registered(reg[1..], reg[0].id)
  {
    forall i, j | 0 <= i < |reg[1..]| && 0 <= j < |reg[1..]| && reg[1..][i].id == reg[1..][j].id
      ensures i == j
    {
      assert reg[i + 1].id == reg[j + 1].id;
    }
    assert forall i :: 0 <= i < |reg[1..]| ==> reg[1..][i].id == reg[i + 1].id != reg[0].id;
  }
}

=== FILE: server.dfy ===
/**
  The chat server's completion handlers as atomic transitions over its
  state (whether the listening channel is open, the connected-clients list,
  the next channel identity to hand out). Each transition returns the new
  state and the effects it performs on channels, in order.
 */
module Server {
  import opened Wrappers
  import opened Channels
  import opened Registry
  import opened Broadcast
  import opened Protocol

  /** The channel an accept completed with; the source may also receive `null`. */
  datatype Accepted = Accepted(remote: PortLookup, open: bool)

  /** The callbacks the asynchronous channel group delivers to the server. */
  datatype Event =
    | AcceptCompleted(channel: Option<Accepted>)  // AcceptHandler.completed
    | AcceptFailed                                // AcceptHandler.failed
    | ReadCompleted(handler: ChannelId, result: int, text: string, unwritable: set<ChannelId>)
      // ClientHandler.completed after a read: `result` bytes decoded to `text`;
      // writes to the channels in `unwritable` fail during the forward
    | WriteCompleted(handler: ChannelId)          // ClientHandler.completed after a write (null attachment)
    | HandlerFailed(handler: ChannelId)           // ClientHandler.failed, for a read or a write

  datatype ServerState = ServerState(listening: bool, clients: seq<Client>, nextId: ChannelId)

  datatype Transition = Transition(state: ServerState, effects: seq<Effect>)

  /** A freshly started server: listening, nobody connected. */
  function Start(): (s: ServerState)
    ensures s.listening && |s.clients| == 0
  {
    ServerState(true, [], 0)
  }

  /** Every handler appears once, and every identity in use has been handed out. */
  predicate Wellformed(s: ServerState) {
    && UniqueIds(s.clients)
    && forall i :: 0 <= i < |s.clients| ==> s.clients[i].id < s.nextId
  }

  /**
    `AcceptHandler.completed`: re-arm the accept first (if the listening
    channel is still open); then, for a non-null open channel, register a
    new handler at the end of the list and issue its first read.
   */
  function OnAcceptCompleted(s: ServerState, channel: Option<Accepted>): (t: Transition)
    ensures t.state.listening == s.listening
    ensures s.listening ==> |t.effects| >= 1 && t.effects[0] == ArmAccept
    ensures ArmAccept in t.effects <==> s.listening
  {
    var rearm := if s.listening then [ArmAccept] else [];
    if channel.Some? && channel.value.open then
      var c := Client(s.nextId, channel.value.remote);
      Transition(s.(clients := AddClient(s.clients, c), nextId := s.nextId + 1), rearm + [ArmRead(c.id)])
    else
      Transition(s, rearm)
  }

  /**
    `ClientHandler.completed` after a read. A result of zero or less removes
    and closes the client and forwards nothing. Otherwise the text is
    forwarded first; then the client is removed and closed if the text is
    `quit`, and a new read is issued if it is not.
   */
  function OnReadCompleted(s: ServerState, handler: ChannelId, result: int, text: string, unwritable: set<ChannelId>): (t: Transition)
    ensures t.state.listening == s.listening && t.state.nextId == s.nextId
    ensures t.state.clients == if result <= 0 || ReadyToQuit(text) then RemoveFirst(s.clients, handler) else s.clients
    ensures result <= 0 ==> t.effects == [Close(handler)]
    ensures result > 0 ==>
      && |t.effects| == |Recipients(s.clients, handler)| + 1
      && t.effects[..|Recipients(s.clients, handler)|] == Forward(s.clients, handler, text, unwritable)
      && t.effects[|t.effects| - 1] == if ReadyToQuit(text) then Close(handler) else ArmRead(handler)
    ensures ClosedIn(t.effects, handler) <==> result <= 0 || ReadyToQuit(text)
    ensures ArmRead(handler) in t.effects <==> result > 0 && !ReadyToQuit(text)
  {
    if result <= 0 then
      Transition(s.(clients := RemoveFirst(s.clients, handler)), [Close(handler)])
    else
      var forwarded := Forward(s.clients, handler, text, unwritable);
      ForwardOnlyWrites(s.clients, handler, text, unwritable);
      var last := if ReadyToQuit(text) then Close(handler) else ArmRead(handler);
      var effects := forwarded + [last];
      assert effects[..|forwarded|] == forwarded && effects[|effects| - 1] == last;
      assert Close(handler) !in forwarded && ArmRead(handler) !in forwarded;
      if ReadyToQuit(text) then
        Transition(s.(clients := RemoveFirst(s.clients, handler)), effects)
      else
        Transition(s, effects)
  }

  /** Forwarding only writes: it neither closes nor arms anything. */
  lemma ForwardOnlyWrites(reg: seq<Client>, sender: ChannelId, msg: string, unwritable: set<ChannelId>)
    ensures forall e :: e in Forward(reg, sender, msg, unwritable) ==> e.Write? || e.WriteFailed?
  {
    var out := Forward(reg, sender, msg, unwritable);
    forall e | e in out
      ensures e.Write? || e.WriteFailed?
    {
      var j :| 0 <= j < |out| && out[j] == e;
    }
  }

  /** One delivered callback. Failure callbacks only report; a write completion does nothing. */
  function Step(s: ServerState, e: Event): (t: Transition)
    ensures t.state.listening == s.listening
    ensures t.state.nextId == s.nextId || (e.AcceptCompleted? && t.state.nextId == s.nextId + 1)
    ensures !e.AcceptCompleted? && !e.ReadCompleted? ==> t.state == s && (t.effects == [] || t.effects == [Reported])
    ensures !e.ReadCompleted? ==> forall x :: !ClosedIn(t.effects, x)
  {
    match e
    case AcceptCompleted(channel) => OnAcceptCompleted(s, channel)
    case AcceptFailed => Transition(s, [Reported])
    case ReadCompleted(h, result, text, unwritable) => OnReadCompleted(s, h, result, text, unwritable)
    case WriteCompleted(_) => Transition(s, [])
    case HandlerFailed(_) => Transition(s, [Reported])
  }

  /**
    A callback the runtime can deliver: a read completes only on a handler
    still in the list, since reads are issued only by registered handlers
    and a handler that leaves the list issues no further read.
   */
  predicate Admissible(s: ServerState, e: Event) {
    e.ReadCompleted? ==> Registered(s.clients, e.handler)
  }

  /** Callbacks delivered one after another; the effects are concatenated in order. */
  function Run(s: ServerState, events: seq<Event>): (t: Transition)
    ensures t.state.listening == s.listening
    ensures s.nextId <= t.state.nextId <= s.nextId + |events|
    decreases |events|
  {
    if |events| == 0 then Transition(s, [])
    else
      var first := Step(s, events[0]);
      var rest := Run(first.state, events[1..]);
      Transition(rest.state, first.effects + rest.effects)
  }

  /** Delivering two batches of callbacks one after the other is the same as delivering them as one run. */
  lemma {:induction false} RunSplit(s: ServerState, a: seq<Event>, b: seq<Event>)
    ensures var first := Run(s, a);
      var second := Run(first.state, b);
      Run(s, a + b) == Transition(second.state, first.effects + second.effects)
    decreases |a|
  {
    RunIsRunBy(s, a + b);
    RunIsRunBy(s, a);
    RunIsRunBy(Run(s, a).state, b);
    RunBySplit(Step, s, a, b);
  }

  /** `Run` with the per-callback transition as a parameter: the shape of a run, whatever one callback does. */
  function RunBy(step: (ServerState, Event) -> Transition, s: ServerState, events: seq<Event>): (t: Transition)
    decreases |events|
  {
    if |events| == 0 then Transition(s, [])
    else
      var first := step(s, events[0]);
      var rest := RunBy(step, first.state, events[1..]);
      Transition(rest.state, first.effects + rest.effects)
  }

  /** `Run` is `RunBy` with `Step` as the transition. */
  lemma {:induction false} RunIsRunBy(s: ServerState, events: seq<Event>)
    ensures Run(s, events) == RunBy(Step, s, events)
    decreases |events|
  {
    if |events| > 0 {
      RunIsRunBy(Step(s, events[0]).state, events[1..]);
    }
  }

  /** Splitting a run in two, for any per-callback transition. */
  lemma {:induction false} RunBySplit(step: (ServerState, Event) -> Transition, s: ServerState, a: seq<Event>, b: seq<Event>)
    ensures var first := RunBy(step, s, a);
      var second := RunBy(step, first.state, b);
      RunBy(step, s, a + b) == Transition(second.state, first.effects + second.effects)
    decreases |a|
  {
    if |a| == 0 {
      assert a + b == b;
    } else {
      var step0 := step(s, a[0]);
      assert (a + b)[0] == a[0] && (a + b)[1..] == a[1..] + b;
      RunBySplit(step, step0.state, a[1..], b);
      var mid := RunBy(step, step0.state, a[1..]);
      var second := RunBy(step, mid.state, b);
      assert step0.effects + (mid.effects + second.effects) == (step0.effects + mid.effects) + second.effects;
    }
  }

  predicate Feasible(s: ServerState, events: seq<Event>)
    decreases |events|
  {
    |events| == 0 || (Admissible(s, events[0]) && Feasible(Step(s, events[0]).state, events[1..]))
  }

  /**
    An accept with a non-null open channel appends exactly one handler, new
    to the list, at the end, and issues its read; any other accept leaves the
    list alone.
   */
  lemma AcceptAppendsOne(s: ServerState, channel: Option<Accepted>)
    requires Wellformed(s)
    ensures var t := OnAcceptCompleted(s, channel);
      && Wellformed(t.state)
      && (channel.Some? && channel.value.open ==>
            && |t.state.clients| == |s.clients| + 1
            && t.state.clients[..|s.clients|] == s.clients
            && !Registered(s.clients, t.state.clients[|s.clients|].id)
            && t.state.clients[|s.clients|].remote == channel.value.remote
            && t.effects[|t.effects| - 1] == ArmRead(t.state.clients[|s.clients|].id))
      && (!(channel.Some? && channel.value.open) ==> t.state == s && forall x :: ArmRead(x) !in t.effects)
  {
    var t := OnAcceptCompleted(s, channel);
    if channel.Some? && channel.value.open {
      var r := t.state.clients;
      assert forall i :: 0 <= i < |s.clients| ==> r[i] == s.clients[i];
    }
  }

  /** Failure callbacks and write completions change nothing, and a failed accept is not re-armed. */
  lemma FailuresOnlyReport(s: ServerState, e: Event)
    requires e.AcceptFailed? || e.HandlerFailed? || e.WriteCompleted?
    ensures Step(s, e).state == s
    ensures ArmAccept !in Step(s, e).effects
    ensures forall x :: ArmRead(x) !in Step(s, e).effects && !ClosedIn(Step(s, e).effects, x)
    ensures Step(s, e).effects == (if e.WriteCompleted? then [] else [Reported])
  {
  }

  /**
    A connected client leaves the list exactly when its own read completes
    with a result of zero or less, or with the text `quit`.
   */
  lemma RemovalOnlyOnEofOrQuit(s: ServerState, e: Event, id: ChannelId)
    requires Wellformed(s) && Registered(s.clients, id)
    ensures !Registered(Step(s, e).state.clients, id) <==>
      e.ReadCompleted? && e.handler == id && (e.result <= 0 || ReadyToQuit(e.text))
  {
    match e
    case AcceptCompleted(channel) =>
      AcceptAppendsOne(s, channel);
      if channel.Some? && channel.value.open {
        var i :| 0 <= i < |s.clients| && s.clients[i].id == id;
        assert Step(s, e).state.clients[i] == s.clients[i];
      }
    case ReadCompleted(h, result, text, unwritable) =>
      if h == id {
        RemoveUnique(s.clients, id);
      } else {
        RemoveKeepsOthers(s.clients, h, id);
      }
    case _ =>
  }

  /**
    One callback keeps the state well formed, never re-registers an old
    handler, and closes only channels it has taken out of the list.
   */
  lemma StepInvariant(s: ServerState, e: Event)
    requires Wellformed(s) && Admissible(s, e)
    ensures StepKeeps(s, Step(s, e))
  {
    match e
    case AcceptCompleted(channel) => AcceptInvariant(s, channel);
    case ReadCompleted(h, result, text, unwritable) => ReadInvariant(s, h, result, text, unwritable);
    case _ =>
  }

  /** What one callback preserves, relating the state before to the transition taken. */
  ghost predicate StepKeeps(s: ServerState, t: Transition) {
    && Wellformed(t.state)
    && (forall i :: 0 <= i < |t.state.clients| && t.state.clients[i].id < s.nextId ==> Registered(s.clients, t.state.clients[i].id))
    && (forall x: ChannelId :: ClosedIn(t.effects, x) ==> Registered(s.clients, x) && !Registered(t.state.clients, x))
  }

  lemma AcceptInvariant(s: ServerState, channel: Option<Accepted>)
    requires Wellformed(s)
    ensures StepKeeps(s, OnAcceptCompleted(s, channel))
  {
    var t := OnAcceptCompleted(s, channel);
    AcceptAppendsOne(s, channel);
    forall i | 0 <= i < |t.state.clients| && t.state.clients[i].id < s.nextId
      ensures Registered(s.clients, t.state.clients[i].id)
    {
      if i < |s.clients| {
        assert t.state.clients[i] == s.clients[i];
      }
    }
  }

  lemma ReadInvariant(s: ServerState, h: ChannelId, result: int, text: string, unwritable: set<ChannelId>)
    requires Wellformed(s) && Registered(s.clients, h)
    ensures StepKeeps(s, OnReadCompleted(s, h, result, text, unwritable))
  {
    if result <= 0 || ReadyToQuit(text) {
      ReadClosesOnlyHandler(s, h, result, text, unwritable);
      RemovalInvariant(s, h);
    } else {
      ForwardOnlyWrites(s.clients, h, text, unwritable);
      assert forall x: ChannelId :: !ClosedIn(OnReadCompleted(s, h, result, text, unwritable).effects, x);
    }
  }

  /** A read that ends the client closes that client's channel and no other. */
  lemma ReadClosesOnlyHandler(s: ServerState, h: ChannelId, result: int, text: string, unwritable: set<ChannelId>)
    requires result <= 0 || ReadyToQuit(text)
    ensures forall x: ChannelId :: ClosedIn(OnReadCompleted(s, h, result, text, unwritable).effects, x) ==> x == h
  {
    if result > 0 {
      ForwardOnlyWrites(s.clients, h, text, unwritable);
    }
  }

  /** Removing a handler keeps the state well formed and takes that handler out for good. */
  lemma RemovalInvariant(s: ServerState, h: ChannelId)
    requires Wellformed(s)
    ensures var s' := s.(clients := RemoveFirst(s.clients, h));
      && Wellformed(s')
      && !Registered(s'.clients, h)
      && forall i :: 0 <= i < |s'.clients| ==> Registered(s.clients, s'.clients[i].id)
  {
    RemoveUnique(s.clients, h);
    var r := RemoveFirst(s.clients, h);
    forall i | 0 <= i < |r|
      ensures r[i].id < s.nextId && Registered(s.clients, r[i].id)
    {
      RemoveKeepsOthers(s.clients, h, r[i].id);
    }
  }

  /**
    Over any feasible run from a well-formed state, the list stays free of
    duplicates, never takes back an old handler, and no client still in it
    has had its channel closed.
   */
  lemma {:induction false} RunInvariant(s: ServerState, events: seq<Event>)
    requires Wellformed(s) && Feasible(s, events)
    ensures var t := Run(s, events);
      && Wellformed(t.state)
      && (forall i :: 0 <= i < |t.state.clients| && t.state.clients[i].id < s.nextId ==> Registered(s.clients, t.state.clients[i].id))
      && (forall x: ChannelId :: ClosedIn(t.effects, x) ==> x < t.state.nextId && !Registered(t.state.clients, x))
    decreases |events|
  {
    if |events| > 0 {
      var first := Step(s, events[0]);
      StepInvariant(s, events[0]);
      RunInvariant(first.state, events[1..]);
      var t := Run(s, events);
      var rest := Run(first.state, events[1..]);
      assert t.state == rest.state && t.effects == first.effects + rest.effects;
      forall i | 0 <= i < |t.state.clients| && t.state.clients[i].id < s.nextId
        ensures Registered(s.clients, t.state.clients[i].id)
      {
        var x := t.state.clients[i].id;
        var j :| 0 <= j < |first.state.clients| && first.state.clients[j].id == x;
      }
      forall x: ChannelId | ClosedIn(t.effects, x)
        ensures x < t.state.nextId && !Registered(t.state.clients, x)
      {
        if !ClosedIn(rest.effects, x) {
          assert ClosedIn(first.effects, x);
        }
      }
    }
  }

  /**
    The server issues reads only for handlers in the list: a new read goes
    to a handler just registered, or to one whose read did not end it.
   */
  lemma ArmsOnlyRegistered(s: ServerState, e: Event)
    requires Wellformed(s) && Admissible(s, e)
    ensures forall x :: ArmRead(x) in Step(s, e).effects ==>
      && (e.AcceptCompleted? ==> x == s.nextId)
      && (e.ReadCompleted? ==> x == e.handler)
      && Registered(Step(s, e).state.clients, x)
  {
    match e
    case AcceptCompleted(channel) => AcceptArmsNewClient(s, channel);
    case ReadCompleted(h, result, text, unwritable) => ReadArmsOwnHandler(s, h, result, text, unwritable);
    case _ =>
  }

  /** An accept issues a read only for the client it has just appended. */
  lemma AcceptArmsNewClient(s: ServerState, channel: Option<Accepted>)
    requires Wellformed(s)
    ensures var t := OnAcceptCompleted(s, channel);
      forall x :: ArmRead(x) in t.effects ==> x == s.nextId && Registered(t.state.clients, x)
  {
    var t := OnAcceptCompleted(s, channel);
    if channel.Some? && channel.value.open {
      var id := s.nextId;
      assert t.state.clients[|s.clients|].id == id;
      assert t.effects == (if s.listening then [ArmAccept] else []) + [ArmRead(id)];
      forall x | ArmRead(x) in t.effects
        ensures x == id && Registered(t.state.clients, x)
      {
        assert x == id;
      }
    }
  }

  /** A read on a registered handler issues the next read only for that handler, which stays in the list. */
  lemma ReadArmsOwnHandler(s: ServerState, h: ChannelId, result: int, text: string, unwritable: set<ChannelId>)
    requires Registered(s.clients, h)
    ensures var t := OnReadCompleted(s, h, result, text, unwritable);
      forall x :: ArmRead(x) in t.effects ==> x == h && Registered(t.state.clients, x)
  {
    var t := OnReadCompleted(s, h, result, text, unwritable);
    if result > 0 {
      var fwd := Forward(s.clients, h, text, unwritable);
      ForwardOnlyWrites(s.clients, h, text, unwritable);
      assert t.effects == fwd + [t.effects[|t.effects| - 1]];
      forall x | ArmRead(x) in t.effects
        ensures x == h && Registered(t.state.clients, x)
      {
        assert ArmRead(x) !in fwd;
      }
    }
  }

  /**
    Who is in the list after one callback: a handler that was there or was
    just created, unless the callback closed its channel.
   */
  lemma StepMembership(s: ServerState, e: Event, x: ChannelId)
    requires Wellformed(s) && Admissible(s, e)
    ensures var t := Step(s, e);
      Registered(t.state.clients, x) <==>
        (Registered(s.clients, x) || s.nextId <= x < t.state.nextId) && !ClosedIn(t.effects, x)
  {
    match e
    case AcceptCompleted(channel) => AcceptMembership(s, channel, x);
    case ReadCompleted(h, result, text, unwritable) => ReadMembership(s, h, result, text, unwritable, x);
    case _ =>
  }

  /** Membership after an accept: the old list, plus the new client if one was appended. */
  lemma AcceptMembership(s: ServerState, channel: Option<Accepted>, x: ChannelId)
    ensures var t := OnAcceptCompleted(s, channel);
      Registered(t.state.clients, x) <==>
        (Registered(s.clients, x) || s.nextId <= x < t.state.nextId) && !ClosedIn(t.effects, x)
  {
    var t := OnAcceptCompleted(s, channel);
    if channel.Some? && channel.value.open {
      var c := Client(s.nextId, channel.value.remote);
      assert t.state.clients == s.clients + [c];
      if Registered(s.clients, x) {
        var i :| 0 <= i < |s.clients| && s.clients[i].id == x;
        assert t.state.clients[i].id == x;
      }
      if Registered(t.state.clients, x) && x != s.nextId {
        var i :| 0 <= i < |t.state.clients| && t.state.clients[i].id == x;
        assert s.clients[i].id == x;
      }
      assert t.state.clients[|s.clients|].id == s.nextId;
      assert t.effects == (if s.listening then [ArmAccept] else []) + [ArmRead(s.nextId)];
    } else {
      assert t.effects == if s.listening then [ArmAccept] else [];
    }
    assert !ClosedIn(t.effects, x);
  }

  /** Membership after a read on a registered handler: only that handler can leave, and only when its channel is closed. */
  lemma ReadMembership(s: ServerState, h: ChannelId, result: int, text: string, unwritable: set<ChannelId>, x: ChannelId)
    requires Wellformed(s) && Registered(s.clients, h)
    ensures var t := OnReadCompleted(s, h, result, text, unwritable);
      Registered(t.state.clients, x) <==> Registered(s.clients, x) && !ClosedIn(t.effects, x)
  {
    if result <= 0 || ReadyToQuit(text) {
      ReadClosesOnlyHandler(s, h, result, text, unwritable);
      if x == h {
        RemoveUnique(s.clients, h);
      } else {
        RemoveKeepsOthers(s.clients, h, x);
      }
    } else {
      ForwardOnlyWrites(s.clients, h, text, unwritable);
      assert !ClosedIn(OnReadCompleted(s, h, result, text, unwritable).effects, x);
    }
  }

  /**
    Over any feasible run, a handler is in the list at the end exactly when
    it was there at the start or was created during the run, and its
    channel was not closed during the run.
   */
  lemma {:induction false} RunMembership(s: ServerState, events: seq<Event>, x: ChannelId)
    requires Wellformed(s) && Feasible(s, events)
    ensures var t := Run(s, events);
      Registered(t.state.clients, x) <==>
        (Registered(s.clients, x) || s.nextId <= x < t.state.nextId) && !ClosedIn(t.effects, x)
    decreases |events|
  {
    if |events| > 0 {
      var first := Step(s, events[0]);
      StepInvariant(s, events[0]);
      StepMembership(s, events[0], x);
      RunMembership(first.state, events[1..], x);
      var rest := Run(first.state, events[1..]);
      assert Run(s, events) == Transition(rest.state, first.effects + rest.effects);
      if ClosedIn(first.effects, x) {
        assert Registered(s.clients, x);
      }
    }
  }

  /**
    From a fresh server, a client is connected exactly as long as its
    channel is open: every handler ever created is in the list precisely
    when the run has not closed its channel.
   */
  lemma ConnectedIffOpen(events: seq<Event>, x: ChannelId)
    requires Feasible(Start(), events)
    ensures var t := Run(Start(), events);
      Registered(t.state.clients, x) <==> x < t.state.nextId && !ClosedIn(t.effects, x)
  {
    RunMembership(Start(), events, x);
  }

  /*
    A session with two clients, on ports 7 and 8, one callback at a time.
    The first sends `hello`: the second gets it (attributed, as written,
    with its own port 8). The second sends `quit`: the first gets it, and
    the second is closed and removed. A later message from the first
    reaches nobody and only re-arms its read.
   */
  const ScenarioOne: ServerState := ServerState(true, [Client(0, Port(7))], 1)
  const ScenarioTwo: ServerState := ServerState(true, [Client(0, Port(7)), Client(1, Port(8))], 2)
  const ScenarioLeft: ServerState := ServerState(true, [Client(0, Port(7))], 2)

  lemma ScenarioConnect()
    ensures Step(Start(), AcceptCompleted(Some(Accepted(Port(7), true)))) == Transition(ScenarioOne, [ArmAccept, ArmRead(0)])
    ensures Step(ScenarioOne, AcceptCompleted(Some(Accepted(Port(8), true)))) == Transition(ScenarioTwo, [ArmAccept, ArmRead(1)])
  {
  }

  lemma ScenarioHello()
    ensures Step(ScenarioTwo, ReadCompleted(0, 5, "hello", {})) == Transition(ScenarioTwo, [Write(1, "客户端[8]:hello"), ArmRead(0)])
  {
    var reg := ScenarioTwo.clients;
    assert ClientName(Port(8)) == "客户端[8]:";
    assert Delivery(Client(1, Port(8)), "hello", {}) == Write(1, "客户端[8]:hello");
    assert reg[1..] == [Client(1, Port(8))] && reg[1..][1..] == [];
    assert Forward(reg[1..], 0, "hello", {}) == [Write(1, "客户端[8]:hello")];
  }

  lemma ScenarioQuit()
    ensures Step(ScenarioTwo, ReadCompleted(1, 4, "quit", {})) == Transition(ScenarioLeft, [Write(0, "客户端[7]:quit"), Close(1)])
  {
    QuitOfSecondClient(Port(7), Port(8));
    PortSevenQuits();
  }

  /** The line port 7 receives when its peer quits. */
  lemma PortSevenQuits()
    ensures ClientName(Port(7)) + "quit" == "客户端[7]:quit"
  {
    assert ClientName(Port(7)) == "客户端[7]:";
  }

  /**
    Whatever the two ports: when the second of two clients sends `quit`, the
    first gets it with its own prefix, then the sender is closed and removed.
   */
  lemma QuitOfSecondClient(p: PortLookup, q: PortLookup)
    ensures Step(ServerState(true, [Client(0, p), Client(1, q)], 2), ReadCompleted(1, 4, "quit", {}))
      == Transition(ServerState(true, [Client(0, p)], 2), [Write(0, ClientName(p) + "quit"), Close(1)])
  {
    SecondRelaysToFirst(p, q, "quit");
    SecondRemoved(p, q);
    assert ReadyToQuit("quit");
  }

  /** The second of two clients broadcasts to the first only. */
  lemma SecondRelaysToFirst(p: PortLookup, q: PortLookup, msg: string)
    ensures Forward([Client(0, p), Client(1, q)], 1, msg, {}) == [Write(0, ClientName(p) + msg)]
  {
    var reg := [Client(0, p), Client(1, q)];
    assert reg[1..] == [Client(1, q)] && reg[1..][1..] == [];
    assert Forward(reg[1..], 1, msg, {}) == [];
  }

  /** Removing the second of two clients leaves the first. */
  lemma SecondRemoved(p: PortLookup, q: PortLookup)
    ensures RemoveFirst([Client(0, p), Client(1, q)], 1) == [Client(0, p)]
  {
    var reg := [Client(0, p), Client(1, q)];
    assert reg[1..] == [Client(1, q)] && reg[1..][1..] == [];
    assert RemoveFirst(reg[1..], 1) == [];
  }

  lemma ScenarioAlone()
    ensures Step(ScenarioLeft, ReadCompleted(0, 1, "x", {})) == Transition(ScenarioLeft, [ArmRead(0)])
  {
    assert ScenarioLeft.clients[1..] == [];
  }
}

=== FILE: userinput.dfy ===
/**
  `UserInputHandler.run`: read a console line, hand it to `sendMsg`, and
  stop right after a line that is `quit`. The input is a finite sequence of
  console events; what the loop produces is the sequence of messages
  written to the server.
 */
module UserInput {
  import opened Protocol
  import opened ChatClient

  /**
    One `readLine` call: a line (and how the write of it will end), an
    `IOException`, or `null` at the end of the console input.
   */
  datatype InputLine = Line(text: string, outcome: WriteOutcome) | ReadLineError | EndOfInput

  predicate IsQuitLine(x: InputLine) {
    x.Line? && ReadyToQuit(x.text)
  }

  /**
    The console events after which the loop does not go on: a `quit` line
    (the `break`), and the end of input, where `sendMsg(null)` throws a
    `NullPointerException` that the loop does not catch, ending the thread.
   */
  predicate Ends(x: InputLine) {
    IsQuitLine(x) || x.EndOfInput?
  }

  /** None of the first `n` console events ends the loop. */
  predicate NoStopBefore(inputs: seq<InputLine>, n: nat)
    requires n <= |inputs|
  {
    forall j :: 0 <= j < n ==> !Ends(inputs[j])
  }

  /** No console event ends the loop: it runs to the end of the script. */
  predicate NoStop(inputs: seq<InputLine>) {
    NoStopBefore(inputs, |inputs|)
  }

  /** What a line contributes to the messages written: itself when non-empty. */
  function LineText(x: InputLine): seq<string> {
    if x.Line? && |x.text| > 0 then [x.text] else []
  }

  /** The non-empty lines among `inputs`, in order. */
  function NonEmptyLines(inputs: seq<InputLine>): (out: seq<string>)
    ensures |out| <= |inputs|
    ensures forall m :: m in out ==> |m| > 0
  {
    if |inputs| == 0 then [] else LineText(inputs[0]) + NonEmptyLines(inputs[1..])
  }

  lemma {:induction false} NonEmptyLinesAppend(a: seq<InputLine>, b: seq<InputLine>)
    ensures NonEmptyLines(a + b) == NonEmptyLines(a) + NonEmptyLines(b)
    decreases |a|
  {
    if |a| == 0 {
      assert a + b == b;
    } else {
      assert (a + b)[1..] == a[1..] + b;
      NonEmptyLinesAppend(a[1..], b);
    }
  }

  /**
    How many console events the loop consumes: up to and including the
    first one that ends it, or all of them when there is none.
   */
  function StopIndex(inputs: seq<InputLine>): (k: nat)
    ensures k <= |inputs|
    ensures (k == |inputs| && NoStop(inputs)) || (0 < k && Ends(inputs[k - 1]) && NoStopBefore(inputs, k - 1))
  {
    if |inputs| == 0 then 0
    else if Ends(inputs[0]) then 1
    else
      var k := 1 + StopIndex(inputs[1..]);
      assert forall j :: 0 < j < |inputs| ==> inputs[j] == inputs[1..][j - 1];
      k
  }

  /** The messages written for a console session: the non-empty lines up to and including the first `quit`, or up to the end of input. */
  function Sent(inputs: seq<InputLine>): seq<string> {
    NonEmptyLines(inputs[..StopIndex(inputs)])
  }

  /**
    The `run` loop. Each line goes to `sendMsg` before the quit check, so
    `quit` itself is sent; an `IOException` from `readLine` is printed and
    the loop goes on; the loop breaks right after the first `quit`, and
    ends on the exception `sendMsg` throws at the end of input.
   */
  method RunInput(inputs: seq<InputLine>) returns (sent: seq<string>, consumed: nat, quit: bool)
    ensures sent == Sent(inputs)
    ensures consumed == StopIndex(inputs)
    ensures quit <==> !NoStop(inputs) && IsQuitLine(inputs[consumed - 1])
  {
    sent, consumed, quit := [], 0, false;
    while consumed < |inputs|
      invariant consumed <= |inputs|
      invariant NoStopBefore(inputs, consumed)
      invariant sent == NonEmptyLines(inputs[..consumed])
    {
      var x := inputs[consumed];
      LoopStep(inputs, consumed);
      LoopContinues(inputs, consumed);
      if x.EndOfInput? {
        consumed := consumed + 1;
        break;
      } else if x.Line? {
        sent := sent + SendMsg(x.text, x.outcome).writes;
        if ReadyToQuit(x.text) {
          consumed, quit := consumed + 1, true;
          break;
        }
      }
      consumed := consumed + 1;
    }
    if consumed == |inputs| && NoStopBefore(inputs, consumed) {
      assert inputs[..consumed] == inputs;
    }
  }

  /** How the loop's view of the input advances by one console event. */
  lemma LoopStep(inputs: seq<InputLine>, i: nat)
    requires i < |inputs| && NoStopBefore(inputs, i)
    ensures NonEmptyLines(inputs[..i + 1]) == NonEmptyLines(inputs[..i]) + LineText(inputs[i])
    ensures Ends(inputs[i]) ==> StopIndex(inputs) == i + 1 && !NoStop(inputs)
  {
    NonEmptyLinesSnoc(inputs, i);
    if Ends(inputs[i]) {
      StopAtFirstQuit(inputs, i);
    }
  }

  /** A console event that does not end the loop extends the quit-free prefix; a line contributes what `sendMsg` writes. */
  lemma LoopContinues(inputs: seq<InputLine>, i: nat)
    requires i < |inputs| && NoStopBefore(inputs, i)
    ensures !Ends(inputs[i]) ==> NoStopBefore(inputs, i + 1)
    ensures inputs[i].Line? ==> SendMsg(inputs[i].text, inputs[i].outcome).writes == LineText(inputs[i])
  {
    if !Ends(inputs[i]) {
      forall j | 0 <= j < i + 1
        ensures !Ends(inputs[j])
      {
      }
    }
  }

  lemma NonEmptyLinesSnoc(inputs: seq<InputLine>, i: nat)
    requires i < |inputs|
    ensures NonEmptyLines(inputs[..i + 1]) == NonEmptyLines(inputs[..i]) + LineText(inputs[i])
  {
    var x := inputs[i];
    assert inputs[..i + 1] == inputs[..i] + [x];
    NonEmptyLinesAppend(inputs[..i], [x]);
    assert NonEmptyLines([x]) == LineText(x) by {
      assert [x][1..] == [];
    }
  }

  /** The loop stops right after the first `quit` line or end of input. */
  lemma StopAtFirstQuit(inputs: seq<InputLine>, i: nat)
    requires i < |inputs| && NoStopBefore(inputs, i) && Ends(inputs[i])
    ensures StopIndex(inputs) == i + 1 && !NoStop(inputs)
  {
    var k := StopIndex(inputs);
  }

  /** When the loop ends on a `quit` line, `quit` is the last message written. */
  lemma QuitIsSentLast(inputs: seq<InputLine>)
    requires !NoStop(inputs) && IsQuitLine(inputs[StopIndex(inputs) - 1])
    ensures |Sent(inputs)| > 0 && Sent(inputs)[|Sent(inputs)| - 1] == Quit
  {
    var k := StopIndex(inputs);
    var prefix := inputs[..k];
    assert prefix == prefix[..k - 1] + [inputs[k - 1]];
    NonEmptyLinesAppend(prefix[..k - 1], [inputs[k - 1]]);
    assert NonEmptyLines([inputs[k - 1]]) == [Quit];
  }

  /** Nothing typed after the first `quit` (or the end of input) is ever written. */
  lemma NothingAfterQuit(inputs: seq<InputLine>, later: seq<InputLine>)
    requires !NoStop(inputs)
    ensures Sent(inputs + later) == Sent(inputs)
  {
    var k := StopIndex(inputs);
    var all := inputs + later;
    assert forall j :: 0 <= j < |inputs| ==> all[j] == inputs[j];
    StopAtFirstQuit(all, k - 1);
    assert all[..k] == inputs[..k];
  }

  /**
    A line that is not `quit` (an empty one included) and a failed
    `readLine` keep the loop running: what follows is still processed.
   */
  lemma NonQuitContinues(x: InputLine, rest: seq<InputLine>)
    requires !Ends(x)
    ensures Sent([x] + rest) == LineText(x) + Sent(rest)
    ensures (x.Line? && |x.text| == 0) || x.ReadLineError? ==> Sent([x] + rest) == Sent(rest)
  {
    var all := [x] + rest;
    assert all[1..] == rest;
    var k := StopIndex(all);
    assert forall j :: 0 < j < |all| ==> all[j] == rest[j - 1];
    assert k == 1 + StopIndex(rest);
    assert all[..k] == [x] + rest[..k - 1];
    NonEmptyLinesAppend([x], rest[..k - 1]);
    assert NonEmptyLines([x]) == LineText(x) by {
      assert [x][1..] == [];
    }
  }

  /** At the end of input the loop stops having written every non-empty line before it and nothing else. */
  lemma EndOfInputStops(inputs: seq<InputLine>, later: seq<InputLine>)
    requires NoStop(inputs)
    ensures Sent(inputs + [EndOfInput] + later) == NonEmptyLines(inputs)
  {
    var n := |inputs|;
    var all := inputs + [EndOfInput] + later;
    assert forall j :: 0 <= j < n ==> all[j] == inputs[j];
    assert all[n] == EndOfInput;
    StopAtFirstQuit(all, n);
    assert all[..n + 1] == inputs + [EndOfInput];
    NonEmptyLinesAppend(inputs, [EndOfInput]);
    assert NonEmptyLines([EndOfInput]) == [] by {
      assert [EndOfInput][1..] == [];
    }
  }

  /** A console session: a greeting, an empty line, a failed read, `quit` (whose write fails), then more text. */
  const Session: seq<InputLine> :=
    [Line("hello", Delivered), Line("", Delivered), ReadLineError, Line("quit", WriteError), Line("after", Delivered)]

  /** That session writes the greeting and `quit`, and nothing typed after `quit`. */
  lemma SessionExample()
    ensures Sent(Session) == ["hello", "quit"]
  {
    SessionFromEmptyLine();
    NonQuitContinues(Session[0], Session[1..]);
    assert [Session[0]] + Session[1..] == Session;
  }

  /** From the empty line on, only `quit` is written: the empty line adds nothing. */
  lemma SessionFromEmptyLine()
    ensures Sent(Session[1..]) == ["quit"]
  {
    SessionFromFailedRead();
    var rest := Session[2..];
    NonQuitContinues(Line("", Delivered), rest);
    assert [Line("", Delivered)] + rest == Session[1..];
  }

  /** From the failed read on, only `quit` is written: the failed read adds nothing. */
  lemma SessionFromFailedRead()
    ensures Sent(Session[2..]) == ["quit"]
  {
    SessionFromQuit();
    var rest := Session[3..];
    NonQuitContinues(ReadLineError, rest);
    assert [ReadLineError] + rest == Session[2..];
  }

  /** From the `quit` line on, `quit` is written and `after` is not. */
  lemma SessionFromQuit()
    ensures Sent(Session[3..]) == ["quit"]
  {
    var quitLine := Line("quit", WriteError);
    StopAtFirstQuit([quitLine], 0);
    assert [quitLine][..1] == [quitLine];
    assert Sent([quitLine]) == ["quit"];
    NothingAfterQuit([quitLine], [Line("after", Delivered)]);
    assert [quitLine] + [Line("after", Delivered)] == Session[3..];
  }
}

=== FILE: wrappers.dfy ===
/** The optional-value datatype used wherever the source can hand over `null`. */
module Wrappers {

  datatype Option<+T> = None | Some(value: T)

}
